=== FILE: README.md ===
# Sequential cores of a practice repository, modelled in Dafny

This project models five self-contained sequential components of the repository and proves
properties of them:

- **Batch consumer** (`go/kafka-demo/examples/05-batch-consumer/main.go`). `ConsumeClaim`
  buffers Kafka messages and hands them to `processBatch`. A flush happens when the buffer
  reaches `batchSize` (50), on a ticker tick when the buffer is non-empty, and, if the buffer is
  non-empty, once more when the session ends. `processBatch` decodes each message and skips failures. It calls `batchProcess`
  once and marks the batch's last message on the session only if that call succeeded.
  Module `BatchConsumer`, file `batch_consumer.dfy`.
- **`Vector<T>`** (`c++/practice/stl/vector.h`). A growable array with a count, a capacity and
  a doubling `realloc`. Module `Vectors`, file `vector.dfy`.
- **`LRUCache`** (`c++/adt/lru/lru.h`). A recency-ordered list plus a key index, with
  eviction of the least recently used entry. Module `Lru`, file `lru.dfy`.
- **`OrderSystem`** (`c++/interview/order_system/order_system.h`). A buy/sell conflict check on
  admission and an order-status state machine. Module `OrderSystem`, file `order_system.dfy`.
- **`NonEmptyStrings`** (`go/temp/mylib/mylib.go`). In-place removal of empty strings from a
  slice. Module `MyLib`, file `mylib.dfy`.

`common.dfy` holds `Option`, `Last`, `Min` and `Max`.

## How the model is built

- **Batch consumer.** The `select` becomes a choice among four event constructors: a message,
  a nil message, a tick and the session's Done. `Run` reads an arbitrary event sequence, so every
  interleaving the Go runtime could pick is covered. `json.Unmarshal` is a parameter
  `decode: seq<byte> -> Option<D>` and `batchProcess` is a parameter `process: seq<D> -> bool`
  (true = nil error). `session.MarkMessage` appends to the `marked` sequence of the state, and
  `tickerResets` counts `ticker.Reset` calls. The state also records every `processBatch` call
  (`flushes`), so that properties of a whole claim can be stated.
- **Vector.** The heap array is a sequence `buf` whose length is `capacity_`. A moved-from
  vector owns no array, so `buf` is empty and the capacity is 0. `make_unique<T[]>(n)`
  value-initialises elements; that value is the parameter `zero`. Exceptions are `Err` results.
  Self-assignment (`this == &other`) is the flag `aliased`.
- **LRU.** The `std::list` is a sequence of nodes, front = most recent. The
  `unordered_map<int, Iterator>` is represented by its key set: each key stands for the iterator
  to the node with that key.
- **Order system.** The two `unordered_map`s are Dafny maps. `double` prices are reals (no NaN); they
  are only compared. `Save`'s loop over the map visits keys in an unspecified order. `SaveScan`
  models that loop with a nondeterministic choice of the next key and is proved to agree with
  the declarative `Save`. The comment above the store in `Save` (order_system.h:50) says a new
  order is saved as pending, but the code writes CONFIRMED (line 52). The model follows the code,
  so PENDING is never reached and the PENDING transitions of `Update` are dead
  (`NeverPending`, `OnlyCompletionReachable`).
- **NonEmptyStrings.** The slice's backing array is a sequence. The method performs the Go
  loop's writes and returns the backing array together with the result length, so the result
  slice is `backing[..n]`. Go's `strs[:i]` keeps the input's capacity, which may exceed its
  length; slots of the backing array past `len(strs)` are not modelled.

Three behaviours of `ConsumeClaim` and `processBatch` are worth stating plainly, because the
model keeps them as the code has them:

- `batchProcess` is called even when no message of a batch decodes; it then receives an empty
  list, and on success the batch's last message is still marked.
- The ticker is reset only after a size-triggered flush, not after a tick-triggered one.
- A nil message makes `ConsumeClaim` return without flushing the buffered messages.

One defect in `Vector` is stated rather than hidden. A moved-from vector has capacity 0, and
`realloc` doubles 0 to 0, so the next `push_back` writes `data_[0]` of an empty array. In the model
this is `PushBack`'s precondition `v.cnt < GrownCapacity(v)`. `MovedFromPushBackOutOfBounds`
proves that a moved-from vector violates it.

## Model

| member | source | states |
|---|---|---|
| `BatchConsumer.DecodeAll` | go/kafka-demo/examples/05-batch-consumer/main.go:90-98 | The decode loop's result is exactly the decodable messages, decoded, in batch order. Its length is the number of decodable messages, which is at most the batch length. |
| `BatchConsumer.DecodableEmptyIff` | go/kafka-demo/examples/05-batch-consumer/main.go:90-98 | The decoded list is empty if and only if no message of the batch decodes. |
| `BatchConsumer.DecodableAll` | go/kafka-demo/examples/05-batch-consumer/main.go:90-98 | When every message decodes, the list has one order per message, and the i-th order is the decoding of the i-th message. |
| `BatchConsumer.ProcessBatch` | go/kafka-demo/examples/05-batch-consumer/main.go:84-109 | batchProcess is called once, on exactly the decodable messages decoded in batch order, so with at most one order per message. On failure nothing is marked. On success exactly the batch's last message is marked. |
| `BatchConsumer.ProcessFailureMarksNothing` | go/kafka-demo/examples/05-batch-consumer/main.go:102-105 | If batchProcess fails, processBatch marks nothing. |
| `BatchConsumer.AllUndecodableStillMarked` | go/kafka-demo/examples/05-batch-consumer/main.go:90-109 | If no message decodes, batchProcess still receives the empty list. If it succeeds, the last message is still marked. |
| `BatchConsumer.FlushBuffer` | go/kafka-demo/examples/05-batch-consumer/main.go:60-61 | A flush hands the whole buffer to processBatch as one batch and empties the buffer. Batch sizes stay consistent with their triggers. Marks stay those of the processed batches. |
| `BatchConsumer.OnMessage` | go/kafka-demo/examples/05-batch-consumer/main.go:51-63 | A message is appended at the end. No message is lost or reordered. The buffer stays below batchSize, and the ticker is never reset without a flush. |
| `BatchConsumer.OnTick` | go/kafka-demo/examples/05-batch-consumer/main.go:65-71 | A tick preserves the invariant and adds no message. At most one batch is flushed, and the claim keeps running. |
| `BatchConsumer.OnSessionDone` | go/kafka-demo/examples/05-batch-consumer/main.go:73-79 | Session end preserves the invariant, loses no message and makes ConsumeClaim return. |
| `BatchConsumer.Step` | go/kafka-demo/examples/05-batch-consumer/main.go:49-81 | After every event the buffer holds fewer than batchSize messages. Every flushed batch is non-empty, and a batch has exactly batchSize messages exactly when it was size-triggered. Flushed batches followed by the buffer equal the earlier ones plus the received message. ConsumeClaim returns exactly on a nil message or session end. |
| `BatchConsumer.Run` | go/kafka-demo/examples/05-batch-consumer/main.go:44-82 | Over any event sequence, the invariant holds. No accepted message is lost, duplicated or reordered. Histories only grow. Every recorded flush is what processBatch computes. |
| `BatchConsumer.SizeFlushIsExact` | go/kafka-demo/examples/05-batch-consumer/main.go:56-63 | The message that fills the buffer triggers a flush of exactly batchSize messages (the old buffer plus this message). The buffer becomes empty and the ticker is reset. |
| `BatchConsumer.BelowSizeBuffers` | go/kafka-demo/examples/05-batch-consumer/main.go:56-59 | Below batchSize a message is only appended to the buffer; nothing else changes. |
| `BatchConsumer.TickOnEmptyIsNoop` | go/kafka-demo/examples/05-batch-consumer/main.go:65-67 | A tick on an empty buffer changes nothing. |
| `BatchConsumer.TickFlushesAll` | go/kafka-demo/examples/05-batch-consumer/main.go:65-71 | A tick on a non-empty buffer flushes all of it (fewer than batchSize messages) and empties it, without a ticker reset. |
| `BatchConsumer.SessionEndDrains` | go/kafka-demo/examples/05-batch-consumer/main.go:73-79 | Session end flushes a non-empty leftover exactly once, flushes nothing when the buffer is empty, and returns. |
| `BatchConsumer.NilMessageDropsLeftover` | go/kafka-demo/examples/05-batch-consumer/main.go:51-54 | A nil message returns with the leftover buffer unflushed and no new marks. |
| `BatchConsumer.ClaimConservesMessages` | go/kafka-demo/examples/05-batch-consumer/main.go:56-79 | For a whole claim, the flushed batches concatenated, followed by the buffer, equal the accepted messages in arrival order. |
| `BatchConsumer.ClaimBatchesWellFormed` | go/kafka-demo/examples/05-batch-consumer/main.go:59-109 | Every batch of a claim is non-empty and at most batchSize, so `batch[len(batch)-1]` is defined. Marks are the last messages of the processed batches. Every batch was decoded and processed with the given collaborators. |
| `BatchConsumer.MessagesOnlyFlushCount` | go/kafka-demo/examples/05-batch-consumer/main.go:56-63 | With only messages arriving, b buffered plus N new messages give (b+N)/batchSize size-triggered flushes and leave (b+N) mod batchSize buffered. |
| `BatchConsumer.MessageStepCounts` | go/kafka-demo/examples/05-batch-consumer/main.go:56-63 | One message yields a size-triggered flush exactly when it completes a batch. |
| `BatchConsumer.AlwaysSucceedingMarksEveryBatch` | go/kafka-demo/examples/05-batch-consumer/main.go:107-109 | When every batch was processed successfully, the marks are exactly the batches' last messages, one per batch, in flush order. |
| `BatchConsumer.ClaimWithDemoProcessMarksAll` | go/kafka-demo/examples/05-batch-consumer/main.go:116-134 | With the demo's batchProcess, which always returns nil, every flushed batch's last message is marked. |
| `BatchConsumer.MarkedOffsetIsBatchMaximum` | go/kafka-demo/examples/05-batch-consumer/main.go:107-109 | When the partition delivers in offset order, each batch's last (marked) message has the batch's highest offset, so the marked offset covers every message of the batch. |
| `Vectors.New` | c++/practice/stl/vector.h:14-19 | `Vector(cnt)` has size cnt, capacity 2 when cnt is 0 and cnt otherwise, and value-initialised elements. |
| `Vectors.Copy` | c++/practice/stl/vector.h:21-29 | A copy has the same size, capacity and elements. |
| `Vectors.CopyAssign` | c++/practice/stl/vector.h:41-54 | Copy assignment gives equal size, capacity and elements. Self-assignment leaves the vector as it was. |
| `Vectors.Move` | c++/practice/stl/vector.h:31-39 | The new vector takes over size, capacity and elements. The source is left with size 0 and capacity 0. |
| `Vectors.MoveAssign` | c++/practice/stl/vector.h:56-69 | Move assignment transfers the vector and leaves the source with size 0 and capacity 0. Self-move changes nothing. |
| `Vectors.Realloc` | c++/practice/stl/vector.h:174-188 | realloc gives capacity newCap, or twice the old capacity, and keeps size and elements. |
| `Vectors.PushBack` | c++/practice/stl/vector.h:72-79 | push_back on a full vector doubles the capacity. It appends the item after the unchanged earlier elements and increments the size. It requires the write slot to exist after the optional realloc. |
| `Vectors.At` | c++/practice/stl/vector.h:81-87 | `at(i)` returns element i if and only if i < size, and `out_of_range` otherwise. |
| `Vectors.Front` | c++/practice/stl/vector.h:101-107 | front returns the first element, and `runtime_error` exactly when the vector is empty. |
| `Vectors.Back` | c++/practice/stl/vector.h:109-115 | back returns the last element, and `runtime_error` exactly when the vector is empty. |
| `Vectors.PopBack` | c++/practice/stl/vector.h:117-124 | pop_back throws `runtime_error` exactly when the vector is empty. Otherwise it decrements the size, keeps the remaining prefix and keeps the capacity. |
| `Vectors.Clear` | c++/practice/stl/vector.h:163-171 | clear sets the size to 0 and keeps the array and capacity. |
| `Vectors.Resize` | c++/practice/stl/vector.h:126-145 | resize(n) sets the size to n and keeps the first min(n, size) elements. If n exceeds the capacity, the capacity becomes exactly n and the new slots are value-initialised. Otherwise the array is unchanged. |
| `Vectors.Reserve` | c++/practice/stl/vector.h:153-159 | reserve(n) makes the capacity max(n, capacity), so it never shrinks, and keeps size and elements. |
| `Vectors.PushBackDefinedIffCapacity` | c++/practice/stl/vector.h:74-77 | push_back's write is in bounds if and only if the capacity is non-zero. |
| `Vectors.MovedFromPushBackOutOfBounds` | c++/practice/stl/vector.h:37-38 | After a move, realloc of the source gives capacity 0, and push_back's write slot does not exist. |
| `Vectors.OperationsKeepUsable` | c++/practice/stl/vector.h:14-171 | Construction, copy, push_back, pop_back, clear, resize and reserve all keep size ≤ capacity and a non-zero capacity. |
| `Vectors.PopBackUndoesPushBack` | c++/practice/stl/vector.h:72-124 | After push_back of x, back returns x, and pop_back gives back the previous elements. |
| `Vectors.PushAll` | c++/stl/vector_test.cpp:283-287 | Pushing a sequence of items appends exactly those items in order. |
| `Vectors.PushedItemsReadBack` | c++/stl/vector_test.cpp:283-292 | After pushing items onto a new vector, `at(i)` returns item i for every i < size, and `at(size)` is `out_of_range`. |
| `Lru.New` | c++/adt/lru/lru.h:19 | A new cache is empty with the given capacity, which must be at least 1. |
| `Lru.IndexOf` | c++/adt/lru/lru.h:23-27 | The position found for a present key holds that key, and no earlier node holds it. |
| `Lru.Flush` | c++/adt/lru/lru.h:50-56 | flush moves the key's node to the front. The other entries keep their relative order, and the index and size are unchanged. |
| `Lru.Get` | c++/adt/lru/lru.h:21-28 | get of an absent key returns -1 and leaves the cache unchanged. get of a present key returns its stored value and moves it to the front, keeping the others' order. |
| `Lru.Put` | c++/adt/lru/lru.h:30-47 | An existing key gets the new value and moves to the front; the count is unchanged. A new key goes in front, after evicting the back entry from list and index when the cache is full. The invariant is kept: count ≤ capacity, index keys = list keys, no duplicates. |
| `Lru.Evict` | c++/adt/lru/lru.h:38-42 | Eviction removes exactly the back (least recently used) node from the list and its key from the index. |
| `Lru.WithoutCutsOut` | c++/adt/lru/lru.h:54 | With distinct keys, removing a node's key from the list cuts out exactly that node. |
| `Lru.PutThenGet` | c++/adt/lru/lru.h:45-46 | After put(k, v), get(k) returns v. |
| `Lru.GetKeepsBindings` | c++/adt/lru/lru.h:21-28 | get only reorders: every key stays bound to its value. |
| `Lru.PutKeepsOtherBindings` | c++/adt/lru/lru.h:30-47 | put(k, v) leaves every other surviving key bound to its old value, and adds no key other than k. |
| `Lru.PutEvictsLeastRecent` | c++/adt/lru/lru.h:38-46 | A put of a new key into a full cache keeps the count at capacity. It removes exactly the least recently used key and keeps all others. |
| `OrderSystem.Save` | c++/interview/order_system/order_system.h:25-54 | Save returns false and changes nothing exactly when an open stored order conflicts. Otherwise it stores the request with status CONFIRMED and returns true. |
| `OrderSystem.SaveScan` | c++/interview/order_system/order_system.h:28-53 | The scan over the stored orders, in any order, accepts exactly when no open stored order conflicts, and agrees with Save. |
| `OrderSystem.ConflictNeedsSameAccountItemOppositeSide` | c++/interview/order_system/order_system.h:38-47 | Orders never conflict when account or item differ or when both are on the same side. |
| `OrderSystem.BuyRejectedIff` | c++/interview/order_system/order_system.h:38-42 | A BUY is rejected if and only if an open SELL of the same account and item has a price ≤ the buy price. |
| `OrderSystem.SellRejectedIff` | c++/interview/order_system/order_system.h:43-46 | A SELL is rejected if and only if an open BUY of the same account and item has a price ≥ the sell price. |
| `OrderSystem.FinishedOrdersIgnored` | c++/interview/order_system/order_system.h:30-35 | COMPLETED and REJECTED orders do not affect admission. Save decides the same on the open orders alone. |
| `OrderSystem.Update` | c++/interview/order_system/order_system.h:56-76 | Update of an unknown id returns false and changes nothing. It returns true exactly for PENDING→REJECTED, PENDING→CONFIRMED and CONFIRMED→COMPLETED, and then writes the new status. Orders never change. |
| `OrderSystem.RefusedUpdateIsNoop` | c++/interview/order_system/order_system.h:58-75 | On a reachable system, a refused Update leaves the status unchanged. |
| `OrderSystem.Apply` | c++/interview/order_system/order_system.h:51-52 | Any sequence of Save and Update calls keeps both maps on the same keys and each order under its own id. No order is ever PENDING or UNDEFINED. |
| `OrderSystem.NeverPending` | c++/interview/order_system/order_system.h:52 | No order reachable from an empty system through Save and Update is PENDING. |
| `OrderSystem.OnlyCompletionReachable` | c++/interview/order_system/order_system.h:67-74 | On a reachable system, the only transition Update can make is CONFIRMED→COMPLETED. |
| `OrderSystem.TestScenario` | c++/interview/order_system/order_system_test.cpp:6-22 | The test's sequence gives its expected results: orders 1 and 2 are accepted, 3 is rejected, and the update to COMPLETED succeeds. The later update to REJECTED fails, and order 4 is accepted. |
| `MyLib.NonEmptyStrings` | go/temp/mylib/mylib.go:5-15 | The result is the input with empty strings removed, in order, and contains no empty string. It is a prefix of the same backing array, of unchanged length. Slots at or beyond the result length are never written. |
| `MyLib.NonEmptyHasNoEmpty` | go/temp/mylib/mylib.go:8-10 | The compacted sequence contains no empty string. |
| `MyLib.NonEmptyLength` | go/temp/mylib/mylib.go:11-14 | The result length equals the number of non-empty inputs and is at most the input length. |
| `MyLib.NonEmptyKeepsClean` | go/temp/mylib/mylib.go:7-14 | An input with no empty strings comes back unchanged. |
| `MyLib.NonEmptyIdempotent` | go/temp/mylib/mylib.go:7-14 | Compacting twice gives the same result as compacting once. |
| `MyLib.NonEmptyStringsExample` | go/temp/mylib/mylib_test.go:11-18 | `["hello", "", "world"]` compacts to `["hello", "world"]`, and the backing array keeps its capacity of 3. |

## Left out

- Sarama consumer-group setup, `Setup`/`Cleanup` logging, signal handling and `main` of the batch consumer: network and library configuration.
- The float `totalAmount`, the per-user map and the throughput logging in `batchProcess`/`processBatch`: floating point and logging. `batchProcess` is a parameter. The demo's version always succeeds (`DemoBatchProcess`).
- The 5-second ticker duration: ticks are abstract events, and which ready channel `select` picks is an arbitrary event order.
- `OrderEvent` JSON decoding: `json.Unmarshal` is the parameter `decode`.
- `Vector::operator[]`, `data()` and the writable references returned by `at`, `front` and `back` (vector.h:81-115): writes through them are not modelled; `operator[]` and `data()` are unchecked raw access with no contract in the source, and the model's `At`, `Front` and `Back` only read.
- `Vectors.Realloc`: `capacity_ * 2` is unbounded here. The 64-bit `size_t` overflow for capacities above 2^63 is not modelled.
- Element destructors: the model covers only trivially destructible `T`. For any other `T`, `pop_back`, `clear` and `resize` call `~T()` on slots (vector.h:122, :140, :167) that stay in the array, and `delete[]` later destroys them a second time. `push_back` then assigns into a destroyed slot (vector.h:77), and `resize` re-exposes destroyed slots as live elements by only setting the count (vector.h:144). All of these are undefined behaviour; the counting element type of the vector tests reaches the double destruction. The model keeps the old value in a destroyed slot.
- `Lru.New`: the C++ constructor takes an `int`. A negative value wraps to a huge `size_t`; the model takes capacity ≥ 1.
- `OrderSystem`'s global `g_system` wrappers `checkAndSaveOrder` and `updateOrderStatus`: they only forward to `Save` and `Update`.
- `Reverse` in `go/temp/mylib/mylib.go`: it only prints.
- `Vectors.PushBack`: the item is taken by value. In C++ `push_back(const T&)` may receive a reference into the vector's own storage (`v.push_back(v.back())`); on a full vector `realloc` moves that element out and frees the old array before line 77 reads it, which is undefined behaviour. The model proves a clean append instead, because Dafny values cannot alias the array.
- `OrderSystem.Save`: prices are reals, so NaN is not representable. With a NaN `double` both comparisons at order_system.h:40 and :44 are false, so such an order never conflicts with, nor blocks, any other; the model does not cover that input.
- Offset commit: `MarkMessage` only records an offset in the session. Auto-commit is switched off (main.go:144) and the code never calls `Commit`, so no mark reaches the broker; the model records marks only.

=== FILE: batch_consumer.dfy ===
/**
 * Model of the batch consumer in go/kafka-demo/examples/05-batch-consumer/main.go.
 *
 * `ConsumeClaim` is a loop around a `select` over three channels: the claim's
 * message channel (which can also yield nil once it is closed), a 5-second
 * ticker, and the session context's Done channel. Which ready channel wins is
 * up to the Go runtime; here the loop is a function over an arbitrary sequence
 * of events, so every interleaving is covered. `json.Unmarshal` and
 * `batchProcess` are parameters; `session.MarkMessage` appends to `marked`.
 */
module BatchConsumer {
  import opened Common

  newtype byte = x: int | 0 <= x < 256

  /** `batchSize` in the handler. */
  const BatchSize: nat := 50

  /** A consumed record: where it sits in its partition and its raw JSON payload. */
  datatype Message = Message(partition: int, offset: int, value: seq<byte>)

  /** What the `select` in ConsumeClaim can receive. */
  datatype Event =
    | Arrived(msg: Message)   // a message from claim.Messages()
    | NilMessage              // a nil message: the channel was closed
    | Tick                    // the ticker fired
    | SessionDone             // session.Context().Done() was closed

  /** Why a batch was handed to processBatch. */
  datatype Trigger = SizeReached | Timeout | SessionEnd

  /** One call of processBatch: the batch, its decoded orders and batchProcess's verdict. */
  datatype Flush<D> = Flush(batch: seq<Message>, trigger: Trigger, decoded: seq<D>, processed: bool)

  /**
   * The handler's state for one claim: the buffered `batch`, the history of
   * processBatch calls, the messages marked on the session, how often the
   * ticker was reset, and whether ConsumeClaim has returned.
   */
  datatype Consumer<D> = Consumer(
    buffer: seq<Message>,
    flushes: seq<Flush<D>>,
    marked: seq<Message>,
    tickerResets: nat,
    returned: bool)

  /** The state on entry to ConsumeClaim. */
  function Init<D>(): (c: Consumer<D>)
    ensures Inv(c) && !c.returned
  {
    Consumer([], [], [], 0, false)
  }

  // ---------------------------------------------------------------------------
  // processBatch
  // ---------------------------------------------------------------------------

  /** Reference definition: the decodable messages of `batch`, decoded, in order. */
  function Decodable<D>(batch: seq<Message>, decode: seq<byte> -> Option<D>): seq<D>
  {
    if batch == [] then []
    else
      var d := decode(batch[|batch| - 1].value);
      Decodable(batch[..|batch| - 1], decode) + (if d.Some? then [d.value] else [])
  }

  /** Number of messages of `batch` that decode. */
  function CountDecodable<D>(batch: seq<Message>, decode: seq<byte> -> Option<D>): nat
  {
    if batch == [] then 0
    else CountDecodable(batch[1..], decode) + (if decode(batch[0].value).Some? then 1 else 0)
  }

  /** The decode loop of processBatch: failures are skipped, the rest appended in order. */
  method DecodeAll<D>(batch: seq<Message>, decode: seq<byte> -> Option<D>) returns (orders: seq<D>)
    ensures orders == Decodable(batch, decode)
    ensures |orders| == CountDecodable(batch, decode) <= |batch|
  {
    orders := [];
    var i := 0;
    while i < |batch|
      invariant i <= |batch|
      invariant orders == Decodable(batch[..i], decode)
    {
      assert batch[..i + 1][..i] == batch[..i];
      var order := decode(batch[i].value);
      if order.Some? {
        orders := orders + [order.value];
      }
      i := i + 1;
    }
    assert batch[..i] == batch;
    DecodableLength(batch, decode);
  }

  lemma {:induction false} DecodableLength<D>(batch: seq<Message>, decode: seq<byte> -> Option<D>)
    ensures |Decodable(batch, decode)| == CountDecodable(batch, decode) <= |batch|
  {
    if batch != [] {
      var init := batch[..|batch| - 1];
      DecodableLength(init, decode);
      CountSnoc(init, batch[|batch| - 1], decode);
      assert init + [batch[|batch| - 1]] == batch;
    }
  }

  lemma {:induction false} CountSnoc<D>(batch: seq<Message>, m: Message, decode: seq<byte> -> Option<D>)
    ensures CountDecodable(batch + [m], decode)
         == CountDecodable(batch, decode) + (if decode(m.value).Some? then 1 else 0)
  {
    if batch == [] {
      assert [] + [m] == [m];
    } else {
      assert (batch + [m])[1..] == batch[1..] + [m];
      CountSnoc(batch[1..], m, decode);
    }
  }

  /** Nothing decodes exactly when the decoded list is empty. */
  lemma {:induction false} DecodableEmptyIff<D>(batch: seq<Message>, decode: seq<byte> -> Option<D>)
    ensures Decodable(batch, decode) == []
        <==> forall i :: 0 <= i < |batch| ==> decode(batch[i].value).None?
  {
    if batch != [] {
      var init := batch[..|batch| - 1];
      DecodableEmptyIff(init, decode);
      assert forall i :: 0 <= i < |init| ==> init[i] == batch[i];
    }
  }

  /** When every message decodes, the decoded list has one order per message. */
  lemma {:induction false} DecodableAll<D>(batch: seq<Message>, decode: seq<byte> -> Option<D>)
    requires forall i :: 0 <= i < |batch| ==> decode(batch[i].value).Some?
    ensures |Decodable(batch, decode)| == |batch|
    ensures forall i :: 0 <= i < |batch| ==> Decodable(batch, decode)[i] == decode(batch[i].value).value
  {
    if batch != [] {
      var init := batch[..|batch| - 1];
      assert forall i :: 0 <= i < |init| ==> init[i] == batch[i];
      DecodableAll(init, decode);
    }
  }

  /** The messages processBatch marks for one call: the last one, only if batchProcess succeeded. */
  function MarkOf<D>(f: Flush<D>): seq<Message>
  {
    if f.processed && |f.batch| > 0 then [Last(f.batch)] else []
  }

  /**
   * processBatch: decode every message, skipping failures; call batchProcess once
   * with what decoded (even if that is nothing); mark the last message of the
   * batch only if batchProcess succeeded. `batch[len(batch)-1]` needs a
   * non-empty batch.
   */
  function ProcessBatch<D>(batch: seq<Message>, trigger: Trigger,
                           decode: seq<byte> -> Option<D>, process: seq<D> -> bool): (f: Flush<D>)
    requires |batch| > 0
    ensures f.batch == batch && f.trigger == trigger
    ensures f.decoded == Decodable(batch, decode) && |f.decoded| <= |batch|
    ensures f.processed == process(f.decoded)
    ensures !f.processed ==> MarkOf(f) == []
    ensures f.processed ==> MarkOf(f) == [batch[|batch| - 1]]
  {
    DecodableLength(batch, decode);
    Flush(batch, trigger, Decodable(batch, decode), process(Decodable(batch, decode)))
  }

  /** If batchProcess fails, nothing of the batch is marked. */
  lemma ProcessFailureMarksNothing<D>(batch: seq<Message>, trigger: Trigger,
                                      decode: seq<byte> -> Option<D>, process: seq<D> -> bool)
    requires |batch| > 0
    requires !process(Decodable(batch, decode))
    ensures MarkOf(ProcessBatch(batch, trigger, decode, process)) == []
  {
  }

  /**
   * A batch none of whose messages decode still reaches batchProcess (with an
   * empty list), and on success its last message is marked.
   */
  lemma AllUndecodableStillMarked<D>(batch: seq<Message>, trigger: Trigger,
                                     decode: seq<byte> -> Option<D>, process: seq<D> -> bool)
    requires |batch| > 0
    requires forall i :: 0 <= i < |batch| ==> decode(batch[i].value).None?
    requires process([])
    ensures ProcessBatch(batch, trigger, decode, process).decoded == []
    ensures MarkOf(ProcessBatch(batch, trigger, decode, process)) == [Last(batch)]
  {
    DecodableEmptyIff(batch, decode);
  }

  /** The demo's batchProcess: it only sums amounts and counts users, then returns nil. */
  function DemoBatchProcess<D>(orders: seq<D>): bool
  {
    true
  }

  // ---------------------------------------------------------------------------
  // Histories
  // ---------------------------------------------------------------------------

  /** All flushed batches, concatenated in flush order. */
  function Flatten<D>(fs: seq<Flush<D>>): seq<Message>
  {
    if fs == [] then [] else Flatten(fs[..|fs| - 1]) + fs[|fs| - 1].batch
  }

  /** Everything the flushes marked, in order. */
  function MarksOf<D>(fs: seq<Flush<D>>): seq<Message>
  {
    if fs == [] then [] else MarksOf(fs[..|fs| - 1]) + MarkOf(fs[|fs| - 1])
  }

  /** The message an event delivers, if any. */
  function Received(e: Event): seq<Message>
  {
    if e.Arrived? then [e.msg] else []
  }

  /** The messages ConsumeClaim accepts from `events`: those before the first nil or Done. */
  function Arrivals(events: seq<Event>): seq<Message>
  {
    if events == [] then []
    else match events[0]
      case Arrived(m) => [m] + Arrivals(events[1..])
      case Tick => Arrivals(events[1..])
      case NilMessage => []
      case SessionDone => []
  }

  lemma ArrivalsUnfold(events: seq<Event>)
    requires |events| > 0
    ensures Arrivals(events)
         == Received(events[0]) + (if events[0].NilMessage? || events[0].SessionDone? then [] else Arrivals(events[1..]))
  {
  }

  /** Two conservation steps compose. */
  lemma ConservationChain(before: seq<Message>, mid: seq<Message>, after: seq<Message>,
                          first: seq<Message>, rest: seq<Message>)
    requires mid == before + first
    requires after == mid + rest
    ensures after == before + (first + rest)
  {
  }

  /** A batch's size agrees with its trigger: a size flush is exactly full, the others are not. */
  predicate WellSized<D>(f: Flush<D>)
  {
    && 0 < |f.batch| <= BatchSize
    && (f.trigger == SizeReached <==> |f.batch| == BatchSize)
  }

  /** What holds between any two events of ConsumeClaim. */
  ghost predicate Inv<D>(c: Consumer<D>)
  {
    && |c.buffer| < BatchSize
    && (forall i :: 0 <= i < |c.flushes| ==> WellSized(c.flushes[i]))
    && c.marked == MarksOf(c.flushes)
  }

  /** Every recorded flush is what processBatch computes from its batch with these collaborators. */
  ghost predicate Recorded<D>(c: Consumer<D>, decode: seq<byte> -> Option<D>, process: seq<D> -> bool)
  {
    forall i :: 0 <= i < |c.flushes| ==>
      && c.flushes[i].decoded == Decodable(c.flushes[i].batch, decode)
      && c.flushes[i].processed == process(c.flushes[i].decoded)
  }

  lemma FlattenSnoc<D>(fs: seq<Flush<D>>, f: Flush<D>)
    ensures Flatten(fs + [f]) == Flatten(fs) + f.batch
    ensures MarksOf(fs + [f]) == MarksOf(fs) + MarkOf(f)
  {
    assert (fs + [f])[..|fs|] == fs;
  }

  // ---------------------------------------------------------------------------
  // ConsumeClaim
  // ---------------------------------------------------------------------------

  /**
   * How a state `r` that follows `c` after `arrived` was received relates to
   * it: the invariant holds, no message is lost, duplicated or reordered, and
   * the histories of flushes and marks only grow, by at most one flush.
   */
  ghost predicate Advances<D>(c: Consumer<D>, r: Consumer<D>, arrived: seq<Message>,
                              decode: seq<byte> -> Option<D>, process: seq<D> -> bool)
  {
    && Inv(r)
    && Flatten(r.flushes) + r.buffer == Flatten(c.flushes) + c.buffer + arrived
    && c.flushes <= r.flushes && |r.flushes| <= |c.flushes| + 1
    && c.marked <= r.marked
    && (Recorded(c, decode, process) ==> Recorded(r, decode, process))
  }

  /** Hand the whole buffer to processBatch and empty it (`batch = batch[:0]`). */
  function FlushBuffer<D>(c: Consumer<D>, trigger: Trigger,
                          decode: seq<byte> -> Option<D>, process: seq<D> -> bool): (r: Consumer<D>)
    requires 0 < |c.buffer| <= BatchSize && (trigger == SizeReached <==> |c.buffer| == BatchSize)
    requires forall i :: 0 <= i < |c.flushes| ==> WellSized(c.flushes[i])
    requires c.marked == MarksOf(c.flushes)
    ensures r.buffer == []
    ensures r.flushes == c.flushes + [ProcessBatch(c.buffer, trigger, decode, process)]
    ensures r.marked == c.marked + MarkOf(Last(r.flushes))
    ensures r.tickerResets == c.tickerResets && r.returned == c.returned
    ensures Advances(c, r, [], decode, process)
  {
    var f := ProcessBatch(c.buffer, trigger, decode, process);
    FlattenSnoc(c.flushes, f);
    var r := c.(buffer := [], flushes := c.flushes + [f], marked := c.marked + MarkOf(f));
    assert forall i :: 0 <= i < |r.flushes| ==> WellSized(r.flushes[i]) by {
      forall i | 0 <= i < |r.flushes| ensures WellSized(r.flushes[i]) {
        if i < |c.flushes| { assert r.flushes[i] == c.flushes[i]; }
      }
    }
    assert Recorded(c, decode, process) ==> Recorded(r, decode, process) by {
      if Recorded(c, decode, process) {
        forall i | 0 <= i < |r.flushes|
          ensures r.flushes[i].decoded == Decodable(r.flushes[i].batch, decode)
          ensures r.flushes[i].processed == process(r.flushes[i].decoded)
        {
          if i < |c.flushes| { assert r.flushes[i] == c.flushes[i]; }
        }
      }
    }
    r
  }

  /** `case message := <-claim.Messages()` with a non-nil message: buffer it; at batchSize flush and reset the ticker. */
  function OnMessage<D>(c: Consumer<D>, m: Message,
                        decode: seq<byte> -> Option<D>, process: seq<D> -> bool): (r: Consumer<D>)
    requires Inv(c) && !c.returned
    ensures Advances(c, r, [m], decode, process) && !r.returned
    ensures r.tickerResets == c.tickerResets + (|r.flushes| - |c.flushes|)
  {
    var grown := c.(buffer := c.buffer + [m]);
    if |grown.buffer| >= BatchSize then
      var r := FlushBuffer(grown, SizeReached, decode, process);
      assert Flatten(r.flushes) + r.buffer == Flatten(c.flushes) + c.buffer + [m];
      r.(tickerResets := c.tickerResets + 1)
    else
      grown
  }

  /** `case <-ticker.C`: flush a non-empty buffer, leave an empty one alone. */
  function OnTick<D>(c: Consumer<D>, decode: seq<byte> -> Option<D>, process: seq<D> -> bool): (r: Consumer<D>)
    requires Inv(c) && !c.returned
    ensures Advances(c, r, [], decode, process) && !r.returned
  {
    if |c.buffer| > 0 then FlushBuffer(c, Timeout, decode, process) else c
  }

  /**
   * `case <-session.Context().Done()`: flush a non-empty leftover and return.
   * The batch variable dies with the call; the model empties the buffer.
   */
  function OnSessionDone<D>(c: Consumer<D>, decode: seq<byte> -> Option<D>, process: seq<D> -> bool): (r: Consumer<D>)
    requires Inv(c) && !c.returned
    ensures Advances(c, r, [], decode, process) && r.returned
  {
    (if |c.buffer| > 0 then FlushBuffer(c, SessionEnd, decode, process) else c).(returned := true)
  }

  /** One iteration of the `for { select { ... } }` loop. A nil message returns at once. */
  function Step<D>(c: Consumer<D>, e: Event,
                   decode: seq<byte> -> Option<D>, process: seq<D> -> bool): (r: Consumer<D>)
    requires Inv(c) && !c.returned
    ensures Advances(c, r, Received(e), decode, process)
    ensures r.returned <==> e.NilMessage? || e.SessionDone?
  {
    match e
    case Arrived(m) => OnMessage(c, m, decode, process)
    case NilMessage => c.(returned := true)
    case Tick => OnTick(c, decode, process)
    case SessionDone => OnSessionDone(c, decode, process)
  }

  /** ConsumeClaim over a sequence of events; once it has returned, further events are not read. */
  function Run<D>(c: Consumer<D>, events: seq<Event>,
                  decode: seq<byte> -> Option<D>, process: seq<D> -> bool): (r: Consumer<D>)
    requires Inv(c)
    ensures Inv(r)
    ensures Flatten(r.flushes) + r.buffer
         == Flatten(c.flushes) + c.buffer + (if c.returned then [] else Arrivals(events))
    ensures c.flushes <= r.flushes && c.marked <= r.marked
    ensures Recorded(c, decode, process) ==> Recorded(r, decode, process)
    decreases |events|
  {
    if events == [] || c.returned then c
    else
      var next := Step(c, events[0], decode, process);
      var r := Run(next, events[1..], decode, process);
      ArrivalsUnfold(events);
      ConservationChain(Flatten(c.flushes) + c.buffer, Flatten(next.flushes) + next.buffer,
                        Flatten(r.flushes) + r.buffer, Received(events[0]),
                        if next.returned then [] else Arrivals(events[1..]));
      r
  }

  // ---------------------------------------------------------------------------
  // Properties of one event
  // ---------------------------------------------------------------------------

  /**
   * The message that brings the buffer to batchSize triggers a flush of exactly
   * batchSize messages (the old buffer plus this one), empties the buffer and
   * resets the ticker.
   */
  lemma SizeFlushIsExact<D>(c: Consumer<D>, m: Message,
                            decode: seq<byte> -> Option<D>, process: seq<D> -> bool)
    requires Inv(c) && !c.returned
    requires |c.buffer| + 1 == BatchSize
    ensures var r := Step(c, Arrived(m), decode, process);
      && r.buffer == []
      && r.flushes == c.flushes + [ProcessBatch(c.buffer + [m], SizeReached, decode, process)]
      && |Last(r.flushes).batch| == BatchSize
      && r.tickerResets == c.tickerResets + 1
      && !r.returned
  {
  }

  /** Below batchSize a message is only buffered, at the end. */
  lemma BelowSizeBuffers<D>(c: Consumer<D>, m: Message,
                            decode: seq<byte> -> Option<D>, process: seq<D> -> bool)
    requires Inv(c) && !c.returned
    requires |c.buffer| + 1 < BatchSize
    ensures Step(c, Arrived(m), decode, process) == c.(buffer := c.buffer + [m])
  {
  }

  /** A tick on an empty buffer changes nothing. */
  lemma TickOnEmptyIsNoop<D>(c: Consumer<D>, decode: seq<byte> -> Option<D>, process: seq<D> -> bool)
    requires Inv(c) && !c.returned
    requires c.buffer == []
    ensures Step(c, Tick, decode, process) == c
  {
  }

  /**
   * A tick on a non-empty buffer flushes all of it (fewer than batchSize
   * messages) and empties it; the ticker is not reset.
   */
  lemma TickFlushesAll<D>(c: Consumer<D>, decode: seq<byte> -> Option<D>, process: seq<D> -> bool)
    requires Inv(c) && !c.returned
    requires c.buffer != []
    ensures var r := Step(c, Tick, decode, process);
      && r.buffer == []
      && r.flushes == c.flushes + [ProcessBatch(c.buffer, Timeout, decode, process)]
      && 0 < |Last(r.flushes).batch| < BatchSize
      && r.tickerResets == c.tickerResets
      && !r.returned
  {
  }

  /** Session end flushes a non-empty leftover exactly once and returns. */
  lemma SessionEndDrains<D>(c: Consumer<D>, decode: seq<byte> -> Option<D>, process: seq<D> -> bool)
    requires Inv(c) && !c.returned
    ensures var r := Step(c, SessionDone, decode, process);
      && r.returned
      && r.buffer == []
      && (c.buffer == [] ==> r.flushes == c.flushes)
      && (c.buffer != [] ==> r.flushes == c.flushes + [ProcessBatch(c.buffer, SessionEnd, decode, process)])
  {
  }

  /** A nil message returns without flushing: the leftover buffer is never processed. */
  lemma NilMessageDropsLeftover<D>(c: Consumer<D>, decode: seq<byte> -> Option<D>, process: seq<D> -> bool)
    requires Inv(c) && !c.returned
    ensures var r := Step(c, NilMessage, decode, process);
      && r.returned
      && r.flushes == c.flushes
      && r.marked == c.marked
      && r.buffer == c.buffer
  {
  }

  // ---------------------------------------------------------------------------
  // Properties of a whole claim
  // ---------------------------------------------------------------------------

  /**
   * Conservation and order: the flushed batches, concatenated, followed by the
   * buffer, are exactly the accepted messages in arrival order.
   */
  lemma ClaimConservesMessages<D>(events: seq<Event>,
                                  decode: seq<byte> -> Option<D>, process: seq<D> -> bool)
    ensures var r := Run(Init(), events, decode, process);
      Flatten(r.flushes) + r.buffer == Arrivals(events)
  {
    var r := Run(Init(), events, decode, process);
    assert Flatten(Init<D>().flushes) + Init<D>().buffer == [];
  }

  /**
   * Every batch of a claim is non-empty and within batchSize, every mark is the
   * last message of a processed batch, and each batch was decoded and processed
   * with the given collaborators.
   */
  lemma ClaimBatchesWellFormed<D>(events: seq<Event>,
                                  decode: seq<byte> -> Option<D>, process: seq<D> -> bool)
    ensures var r := Run(Init(), events, decode, process);
      && |r.buffer| < BatchSize
      && (forall i :: 0 <= i < |r.flushes| ==> 0 < |r.flushes[i].batch| <= BatchSize)
      && r.marked == MarksOf(r.flushes)
      && (forall i :: 0 <= i < |r.flushes| ==>
            r.flushes[i].decoded == Decodable(r.flushes[i].batch, decode)
            && r.flushes[i].processed == process(r.flushes[i].decoded))
  {
    var r := Run(Init(), events, decode, process);
    assert Recorded(Init(), decode, process);
    assert Recorded(r, decode, process);
    assert forall i :: 0 <= i < |r.flushes| ==> WellSized(r.flushes[i]);
  }

  /**
   * With only messages arriving, N messages on top of a buffer of b produce
   * (b + N) / batchSize size-triggered flushes and leave (b + N) % batchSize buffered.
   */
  lemma {:induction false} MessagesOnlyFlushCount<D>(c: Consumer<D>, events: seq<Event>,
                                                     decode: seq<byte> -> Option<D>, process: seq<D> -> bool)
    requires Inv(c) && !c.returned
    requires forall i :: 0 <= i < |events| ==> events[i].Arrived?
    ensures var r := Run(c, events, decode, process);
      && |r.flushes| == |c.flushes| + (|c.buffer| + |events|) / BatchSize
      && |r.buffer| == (|c.buffer| + |events|) % BatchSize
      && !r.returned
      && (forall i :: |c.flushes| <= i < |r.flushes| ==> r.flushes[i].trigger == SizeReached)
    decreases |events|
  {
    if events != [] {
      var next := Step(c, events[0], decode, process);
      MessageStepCounts(c, events[0].msg, decode, process);
      assert forall i :: 0 <= i < |events[1..]| ==> events[1..][i].Arrived? by {
        forall i | 0 <= i < |events[1..]| ensures events[1..][i].Arrived? {
          assert events[1..][i] == events[i + 1];
        }
      }
      MessagesOnlyFlushCount(next, events[1..], decode, process);
      BatchArithmetic(|c.buffer|, |events|);
      var r := Run(next, events[1..], decode, process);
      forall i | |c.flushes| <= i < |r.flushes|
        ensures r.flushes[i].trigger == SizeReached
      {
        if i < |next.flushes| {
          assert r.flushes[i] == next.flushes[i];
        }
      }
    }
  }

  /** One message: a size flush exactly when it completes a batch. */
  lemma MessageStepCounts<D>(c: Consumer<D>, m: Message,
                             decode: seq<byte> -> Option<D>, process: seq<D> -> bool)
    requires Inv(c) && !c.returned
    ensures var r := Step(c, Arrived(m), decode, process);
      && |r.flushes| == |c.flushes| + (|c.buffer| + 1) / BatchSize
      && |r.buffer| == (|c.buffer| + 1) % BatchSize
      && !r.returned
      && (forall i :: |c.flushes| <= i < |r.flushes| ==> r.flushes[i].trigger == SizeReached)
  {
    if |c.buffer| + 1 == BatchSize {
      SizeFlushIsExact(c, m, decode, process);
    } else {
      BelowSizeBuffers(c, m, decode, process);
    }
  }

  /** Splitting b + n buffered messages into the first step and the rest. */
  lemma BatchArithmetic(b: nat, n: nat)
    requires b < BatchSize && n > 0
    ensures (b + n) / BatchSize == (b + 1) / BatchSize + ((b + 1) % BatchSize + (n - 1)) / BatchSize
    ensures (b + n) % BatchSize == ((b + 1) % BatchSize + (n - 1)) % BatchSize
  {
    if b + 1 == BatchSize {
      assert (b + n) / BatchSize == 1 + (n - 1) / BatchSize;
      assert (b + n) % BatchSize == (n - 1) % BatchSize;
    }
  }

  /**
   * With the demo's batchProcess (which always returns nil), every batch's last
   * message is marked, in flush order.
   */
  lemma {:induction false} AlwaysSucceedingMarksEveryBatch<D>(fs: seq<Flush<D>>)
    requires forall i :: 0 <= i < |fs| ==> fs[i].processed && |fs[i].batch| > 0
    ensures |MarksOf(fs)| == |fs|
    ensures forall i :: 0 <= i < |fs| ==> MarksOf(fs)[i] == Last(fs[i].batch)
  {
    if fs != [] {
      var init := fs[..|fs| - 1];
      assert forall i :: 0 <= i < |init| ==> init[i] == fs[i];
      AlwaysSucceedingMarksEveryBatch(init);
      assert MarksOf(fs) == MarksOf(init) + [Last(fs[|fs| - 1].batch)];
      forall i | 0 <= i < |fs|
        ensures MarksOf(fs)[i] == Last(fs[i].batch)
      {
        if i < |init| {
          assert MarksOf(fs)[i] == MarksOf(init)[i];
        }
      }
    }
  }

  /** A claim run with the demo's batchProcess marks the last message of every batch. */
  lemma ClaimWithDemoProcessMarksAll<D>(events: seq<Event>, decode: seq<byte> -> Option<D>)
    ensures var r := Run(Init(), events, decode, DemoBatchProcess);
      && |r.marked| == |r.flushes|
      && forall i :: 0 <= i < |r.flushes| ==> r.marked[i] == Last(r.flushes[i].batch)
  {
    var r := Run(Init(), events, decode, DemoBatchProcess);
    assert forall i :: 0 <= i < |r.flushes| ==> WellSized(r.flushes[i]);
    AlwaysSucceedingMarksEveryBatch(r.flushes);
  }

  /** Offsets strictly increase along `ms` (a partition delivers in offset order). */
  ghost predicate IncreasingOffsets(ms: seq<Message>)
  {
    forall i, j :: 0 <= i < j < |ms| ==> ms[i].offset < ms[j].offset
  }

  lemma IncreasingPrefix(front: seq<Message>, back: seq<Message>)
    requires IncreasingOffsets(front + back)
    ensures IncreasingOffsets(front)
  {
    assert forall i :: 0 <= i < |front| ==> front[i] == (front + back)[i];
  }

  /** The flushes up to `j` flatten to a prefix of all flushes. */
  lemma {:induction false} FlattenPrefix<D>(fs: seq<Flush<D>>, j: nat)
    requires j <= |fs|
    ensures Flatten(fs[..j]) <= Flatten(fs)
    decreases |fs|
  {
    if j < |fs| {
      var init := fs[..|fs| - 1];
      assert init[..j] == fs[..j];
      FlattenPrefix(init, j);
    } else {
      assert fs[..j] == fs;
    }
  }

  /** Batch i occupies a contiguous slice of the flattened history. */
  lemma BatchIsSlice<D>(fs: seq<Flush<D>>, i: nat)
    requires i < |fs|
    ensures var lo := |Flatten(fs[..i])|;
      lo + |fs[i].batch| <= |Flatten(fs)| && Flatten(fs)[lo..lo + |fs[i].batch|] == fs[i].batch
  {
    assert fs[..i + 1][..i] == fs[..i];
    FlattenPrefix(fs, i + 1);
  }

  /** In an offset-ordered sequence, the last element of any non-empty slice has the slice's highest offset. */
  lemma SliceLastIsMaximum(all: seq<Message>, b: seq<Message>, lo: nat)
    requires IncreasingOffsets(all)
    requires 0 < |b| && lo + |b| <= |all| && all[lo..lo + |b|] == b
    ensures forall k :: 0 <= k < |b| ==> b[k].offset <= Last(b).offset
  {
    forall k | 0 <= k < |b|
      ensures b[k].offset <= Last(b).offset
    {
      assert b[k] == all[lo + k] && Last(b) == all[lo + |b| - 1];
    }
  }

  /** In an offset-ordered history, every flushed batch ends with its highest offset. */
  lemma BatchesEndWithMaximum<D>(fs: seq<Flush<D>>, rest: seq<Message>)
    requires IncreasingOffsets(Flatten(fs) + rest)
    requires forall i :: 0 <= i < |fs| ==> |fs[i].batch| > 0
    ensures forall i, k :: 0 <= i < |fs| && 0 <= k < |fs[i].batch| ==>
      fs[i].batch[k].offset <= Last(fs[i].batch).offset
  {
    IncreasingPrefix(Flatten(fs), rest);
    forall i | 0 <= i < |fs|
      ensures forall k :: 0 <= k < |fs[i].batch| ==> fs[i].batch[k].offset <= Last(fs[i].batch).offset
    {
      BatchIsSlice(fs, i);
      SliceLastIsMaximum(Flatten(fs), fs[i].batch, |Flatten(fs[..i])|);
    }
  }

  /**
   * When the partition delivers in offset order, the message marked for a batch
   * (its last one) carries the highest offset of that batch, so the marked
   * offset covers every message of the batch.
   */
  lemma MarkedOffsetIsBatchMaximum<D>(events: seq<Event>,
                                      decode: seq<byte> -> Option<D>, process: seq<D> -> bool)
    requires IncreasingOffsets(Arrivals(events))
    ensures var r := Run(Init(), events, decode, process);
      forall i, k :: 0 <= i < |r.flushes| && 0 <= k < |r.flushes[i].batch| ==>
        r.flushes[i].batch[k].offset <= Last(r.flushes[i].batch).offset
  {
    var r := Run(Init(), events, decode, process);
    ClaimConservesMessages(events, decode, process);
    assert forall i :: 0 <= i < |r.flushes| ==> WellSized(r.flushes[i]);
    BatchesEndWithMaximum(r.flushes, r.buffer);
  }
}

=== FILE: common.dfy ===
/** Small helpers shared by every component model. */
module Common {

  /** A value that may be absent (a decode that failed, a realloc without an explicit size). */
  datatype Option<+T> = None | Some(value: T)

  /** The last element of a non-empty sequence. */
  function Last<T>(s: seq<T>): T
    requires |s| > 0
  {
    s[|s| - 1]
  }

  function Min(a: int, b: int): int
  {
    if a <= b then a else b
  }

  function Max(a: int, b: int): int
  {
    if a >= b then a else b
  }
}

=== FILE: lru.dfy ===
/**
 * Model of `LRUCache` in c++/adt/lru/lru.h.
 *
 * The `std::list<Node>` of entries is the sequence `values`, front = most
 * recently used. The `unordered_map<int, Iterator>` index is represented by its
 * key set `keys`: each key stands for the iterator to the list node carrying
 * that key.
 */
module Lru {
  import opened Common

  datatype Node = Node(key: int, value: int)

  datatype Cache = Cache(values: seq<Node>, keys: set<int>, capacity: nat)

  /** The keys present in a list of nodes. */
  function KeysOf(ns: seq<Node>): set<int>
  {
    set i | 0 <= i < |ns| :: ns[i].key
  }

  ghost predicate DistinctKeys(ns: seq<Node>)
  {
    forall i, j :: 0 <= i < j < |ns| ==> ns[i].key != ns[j].key
  }

  /**
   * The class invariant: at least one slot, no more entries than slots, the
   * index covers exactly the list's keys, and no key is listed twice.
   */
  ghost predicate Valid(c: Cache)
  {
    && 1 <= c.capacity
    && |c.values| <= c.capacity
    && c.keys == KeysOf(c.values)
    && DistinctKeys(c.values)
  }

  /**
   * `LRUCache(int capacity)`. A capacity of 0 makes the first `put` call
   * `back()` on an empty list, so at least 1 is required.
   */
  function New(capacity: int): (c: Cache)
    requires capacity >= 1
    ensures Valid(c) && c.values == [] && c.capacity == capacity
  {
    Cache([], {}, capacity)
  }

  /** Position of `key` in the list. */
  function IndexOf(ns: seq<Node>, key: int): (i: nat)
    requires key in KeysOf(ns)
    ensures i < |ns| && ns[i].key == key
    ensures forall j :: 0 <= j < i ==> ns[j].key != key
  {
    if ns[0].key == key then 0
    else
      assert key in KeysOf(ns[1..]) by {
        var j :| 0 <= j < |ns| && ns[j].key == key;
        assert ns[1..][j - 1].key == key;
      }
      1 + IndexOf(ns[1..], key)
  }

  /** The value stored for `key`. */
  function Lookup(ns: seq<Node>, key: int): int
    requires key in KeysOf(ns)
  {
    ns[IndexOf(ns, key)].value
  }

  /** Reference definition: the list with the node(s) for `key` removed, order kept. */
  function Without(ns: seq<Node>, key: int): seq<Node>
  {
    if ns == [] then []
    else (if ns[0].key == key then [] else [ns[0]]) + Without(ns[1..], key)
  }

  /** In a list without duplicate keys, removing node i's key cuts out exactly node i. */
  lemma {:induction false} WithoutCutsOut(ns: seq<Node>, i: nat)
    requires DistinctKeys(ns) && i < |ns|
    ensures Without(ns, ns[i].key) == ns[..i] + ns[i + 1..]
  {
    if i == 0 {
      WithoutHead(ns);
    } else {
      var key := ns[i].key;
      var tail := ns[1..];
      TailDistinct(ns);
      assert tail[i - 1] == ns[i];
      WithoutCutsOut(tail, i - 1);
      calc {
        Without(ns, key);
        { assert ns[0].key != key; }
        [ns[0]] + Without(tail, key);
        [ns[0]] + (tail[..i - 1] + tail[i..]);
        { assert ns[..i] == [ns[0]] + tail[..i - 1]; assert ns[i + 1..] == tail[i..]; }
        ns[..i] + ns[i + 1..];
      }
    }
  }

  lemma TailDistinct(ns: seq<Node>)
    requires DistinctKeys(ns) && |ns| > 0
    ensures DistinctKeys(ns[1..])
    ensures forall j :: 0 <= j < |ns| - 1 ==> ns[1..][j].key != ns[0].key
  {
    assert forall j :: 0 <= j < |ns| - 1 ==> ns[1..][j] == ns[j + 1];
  }

  lemma WithoutHead(ns: seq<Node>)
    requires DistinctKeys(ns) && |ns| > 0
    ensures Without(ns, ns[0].key) == ns[1..]
  {
    TailDistinct(ns);
    WithoutAbsent(ns[1..], ns[0].key);
  }

  lemma {:induction false} WithoutAbsent(ns: seq<Node>, key: int)
    requires forall j :: 0 <= j < |ns| ==> ns[j].key != key
    ensures Without(ns, key) == ns
  {
    if ns != [] {
      WithoutAbsent(ns[1..], key);
    }
  }

  lemma KeysOfCut(ns: seq<Node>, i: nat)
    requires DistinctKeys(ns) && i < |ns|
    ensures KeysOf(ns[..i] + ns[i + 1..]) == KeysOf(ns) - {ns[i].key}
    ensures DistinctKeys(ns[..i] + ns[i + 1..])
  {
    var rest := ns[..i] + ns[i + 1..];
    forall j | 0 <= j < |rest|
      ensures rest[j] == (if j < i then ns[j] else ns[j + 1])
    {
    }
    forall k | k in KeysOf(ns) - {ns[i].key}
      ensures k in KeysOf(rest)
    {
      var j :| 0 <= j < |ns| && ns[j].key == k;
      if j < i {
        assert rest[j].key == k;
      } else {
        assert rest[j - 1].key == k;
      }
    }
  }

  /** The list with node `n` put in front of `rest`. */
  lemma KeysOfCons(n: Node, rest: seq<Node>)
    requires DistinctKeys(rest) && n.key !in KeysOf(rest)
    ensures KeysOf([n] + rest) == KeysOf(rest) + {n.key}
    ensures DistinctKeys([n] + rest)
  {
    var l := [n] + rest;
    forall j | 0 < j < |l|
      ensures l[j] == rest[j - 1]
    {
    }
    forall k | k in KeysOf(rest)
      ensures k in KeysOf(l)
    {
      var j :| 0 <= j < |rest| && rest[j].key == k;
      assert l[j + 1].key == k;
    }
    assert l[0].key == n.key;
    forall k | k in KeysOf(l)
      ensures k in KeysOf(rest) + {n.key}
    {
      var j :| 0 <= j < |l| && l[j].key == k;
      if j > 0 {
        assert rest[j - 1].key == k;
      }
    }
  }

  /**
   * The private `flush`: splice the node for `key` to the front of the list
   * and re-point the index at it. The other entries keep their relative order.
   */
  function Flush(c: Cache, key: int): (r: Cache)
    requires Valid(c) && key in c.keys
    ensures Valid(r)
    ensures r.keys == c.keys && r.capacity == c.capacity && |r.values| == |c.values|
    ensures r.values == [c.values[IndexOf(c.values, key)]] + Without(c.values, key)
  {
    var i := IndexOf(c.values, key);
    WithoutCutsOut(c.values, i);
    KeysOfCut(c.values, i);
    KeysOfCons(c.values[i], c.values[..i] + c.values[i + 1..]);
    c.(values := [c.values[i]] + (c.values[..i] + c.values[i + 1..]))
  }

  /**
   * `get`: -1 and no change for an absent key; otherwise the stored value, and
   * the entry becomes the most recent.
   */
  function Get(c: Cache, key: int): (r: (int, Cache))
    requires Valid(c)
    ensures Valid(r.1) && r.1.keys == c.keys && r.1.capacity == c.capacity
    ensures key !in c.keys ==> r == (-1, c)
    ensures key in c.keys ==> r.0 == Lookup(c.values, key)
    ensures key in c.keys ==> r.1.values == [Node(key, r.0)] + Without(c.values, key)
  {
    if key !in c.keys then (-1, c)
    else
      var f := Flush(c, key);
      (f.values[0].value, f)
  }

  /**
   * `put`: an existing key gets the new value and becomes the most recent; a
   * new key evicts the least recent entry when the cache is full, then goes
   * in front.
   */
  function Put(c: Cache, key: int, value: int): (r: Cache)
    requires Valid(c)
    ensures Valid(r) && r.capacity == c.capacity
    ensures |r.values| > 0 && r.values[0] == Node(key, value)
    ensures key in c.keys ==> r.values[1..] == Without(c.values, key) && r.keys == c.keys
    ensures key in c.keys ==> |r.values| == |c.values|
    ensures key !in c.keys && |c.values| < c.capacity ==>
      r.values == [Node(key, value)] + c.values && r.keys == c.keys + {key}
    ensures key !in c.keys && |c.values| == c.capacity ==>
      && r.values == [Node(key, value)] + c.values[..|c.values| - 1]
      && r.keys == c.keys - {Last(c.values).key} + {key}
  {
    if key in c.keys then
      var i := IndexOf(c.values, key);
      var updated := c.(values := c.values[i := Node(key, value)]);
      assert KeysOf(updated.values) == KeysOf(c.values) by {
        forall j | 0 <= j < |c.values| ensures updated.values[j].key == c.values[j].key { }
      }
      assert IndexOf(updated.values, key) == i by {
        IndexUnique(updated.values, key, i);
      }
      WithoutCutsOut(c.values, i);
      WithoutCutsOut(updated.values, i);
      assert updated.values[..i] + updated.values[i + 1..] == c.values[..i] + c.values[i + 1..];
      Flush(updated, key)
    else
      var room := if |c.values| == c.capacity then Evict(c) else c;
      KeysOfCons(Node(key, value), room.values);
      room.(values := [Node(key, value)] + room.values, keys := room.keys + {key})
  }

  /** Evict the back (least recently used) entry from list and index. */
  function Evict(c: Cache): (r: Cache)
    requires Valid(c) && |c.values| == c.capacity
    ensures r.capacity == c.capacity && |r.values| == c.capacity - 1
    ensures r.values == c.values[..|c.values| - 1]
    ensures r.keys == c.keys - {Last(c.values).key} == KeysOf(r.values)
    ensures DistinctKeys(r.values)
  {
    var back := Last(c.values);
    KeysOfCut(c.values, |c.values| - 1);
    assert c.values[..|c.values| - 1] + c.values[|c.values|..] == c.values[..|c.values| - 1];
    c.(values := c.values[..|c.values| - 1], keys := c.keys - {back.key})
  }

  lemma IndexUnique(ns: seq<Node>, key: int, i: nat)
    requires DistinctKeys(ns) && i < |ns| && ns[i].key == key
    ensures key in KeysOf(ns) && IndexOf(ns, key) == i
  {
  }

  /** Two lists that hold the same node bind its key to the same value. */
  lemma SameBinding(ns: seq<Node>, rs: seq<Node>, j: nat, p: nat)
    requires DistinctKeys(ns) && DistinctKeys(rs)
    requires j < |ns| && p < |rs| && rs[p] == ns[j]
    ensures ns[j].key in KeysOf(rs) && Lookup(rs, ns[j].key) == Lookup(ns, ns[j].key)
  {
    IndexUnique(ns, ns[j].key, j);
    IndexUnique(rs, ns[j].key, p);
  }

  /** After a put, a get of the same key returns the value just put. */
  lemma PutThenGet(c: Cache, key: int, value: int)
    requires Valid(c)
    ensures Get(Put(c, key, value), key).0 == value
  {
    var r := Put(c, key, value);
    IndexUnique(r.values, key, 0);
  }

  /** A get changes the order only: every key keeps its value. */
  lemma GetKeepsBindings(c: Cache, key: int, k: int)
    requires Valid(c) && k in c.keys
    ensures var r := Get(c, key).1;
      k in r.keys && Lookup(r.values, k) == Lookup(c.values, k)
  {
    var r := Get(c, key).1;
    var ns := c.values;
    var j := IndexOf(ns, k);
    if key in c.keys {
      var i := IndexOf(ns, key);
      WithoutCutsOut(ns, i);
      assert r.values == [ns[i]] + (ns[..i] + ns[i + 1..]);
      var p := if j == i then 0 else if j < i then j + 1 else j;
      assert r.values[p] == ns[j];
      SameBinding(ns, r.values, j, p);
    }
  }

  /** A put leaves every other surviving key bound to its old value. */
  lemma PutKeepsOtherBindings(c: Cache, key: int, value: int, k: int)
    requires Valid(c) && k != key
    ensures var r := Put(c, key, value);
      k in r.keys ==> k in c.keys && Lookup(r.values, k) == Lookup(c.values, k)
  {
    var r := Put(c, key, value);
    if k in r.keys {
      assert k in c.keys;
      var j := IndexOf(c.values, k);
      if key in c.keys {
        var i := IndexOf(c.values, key);
        WithoutCutsOut(c.values, i);
        CutPosition(c.values, r.values, i, j);
      } else {
        assert r.values[j + 1] == c.values[j];
        SameBinding(c.values, r.values, j, j + 1);
      }
    }
  }

  /** After node i is cut out and one node is put in front, node j != i sits where this says. */
  lemma CutPosition(ns: seq<Node>, rs: seq<Node>, i: nat, j: nat)
    requires DistinctKeys(ns) && DistinctKeys(rs)
    requires i < |ns| && j < |ns| && i != j
    requires |rs| > 0 && rs[1..] == ns[..i] + ns[i + 1..]
    ensures ns[j].key in KeysOf(rs) && Lookup(rs, ns[j].key) == Lookup(ns, ns[j].key)
  {
    var p := if j < i then j + 1 else j;
    assert rs[p] == rs[1..][p - 1];
    SameBinding(ns, rs, j, p);
  }

  /** A put of a new key into a full cache evicts exactly the least recently used entry. */
  lemma PutEvictsLeastRecent(c: Cache, key: int, value: int)
    requires Valid(c) && key !in c.keys && |c.values| == c.capacity
    ensures var r := Put(c, key, value);
      && |r.values| == c.capacity
      && Last(c.values).key !in r.keys
      && forall k :: k in c.keys && k != Last(c.values).key ==> k in r.keys
  {
  }
}

=== FILE: mylib.dfy ===
/**
 * Model of `NonEmptyStrings` in go/temp/mylib/mylib.go: an in-place compaction
 * of a slice of strings that drops the empty ones and returns the compacted
 * prefix of the same backing array.
 */
module MyLib {

  /** Reference definition: the input with every empty string removed, order kept. */
  function NonEmpty(strs: seq<string>): seq<string>
  {
    if strs == [] then []
    else NonEmpty(strs[..|strs| - 1]) + (if strs[|strs| - 1] == "" then [] else [strs[|strs| - 1]])
  }

  /** Number of non-empty strings in `strs`. */
  function CountNonEmpty(strs: seq<string>): nat
  {
    if strs == [] then 0
    else CountNonEmpty(strs[1..]) + (if strs[0] == "" then 0 else 1)
  }

  ghost predicate NoEmpty(strs: seq<string>)
  {
    forall i :: 0 <= i < |strs| ==> strs[i] != ""
  }

  /**
   * The Go loop: a read index walks the slice, non-empty strings are written at
   * the write index `n`. The slice's elements `strs[0:len(strs)]` of the backing
   * array are returned as `backing`, of unchanged length, and the result slice
   * is `backing[..n]` (Go's `strs[:i]` keeps the input's capacity, which may
   * exceed its length; slots past the length are not modelled).
   */
  method NonEmptyStrings(strs: seq<string>) returns (backing: seq<string>, n: nat)
    ensures |backing| == |strs|
    ensures n <= |strs|
    ensures backing[..n] == NonEmpty(strs)
    ensures NoEmpty(backing[..n])
    ensures backing[n..] == strs[n..]
  {
    backing := strs;
    n := 0;
    var read := 0;
    while read < |strs|
      invariant n <= read <= |strs|
      invariant |backing| == |strs|
      invariant backing[..n] == NonEmpty(strs[..read])
      invariant NoEmpty(backing[..n])
      invariant backing[n..] == strs[n..]
    {
      var str := strs[read];
      assert strs[..read + 1] == strs[..read] + [str];
      assert strs[..read + 1][..read] == strs[..read];
      if str != "" {
        backing := backing[n := str];
        n := n + 1;
      }
      read := read + 1;
    }
    assert strs[..read] == strs;
  }

  /** The result never holds an empty string. */
  lemma {:induction false} NonEmptyHasNoEmpty(strs: seq<string>)
    ensures NoEmpty(NonEmpty(strs))
  {
    if strs != [] {
      NonEmptyHasNoEmpty(strs[..|strs| - 1]);
    }
  }

  /** The result length is the number of non-empty inputs, hence at most the input length. */
  lemma {:induction false} NonEmptyLength(strs: seq<string>)
    ensures |NonEmpty(strs)| == CountNonEmpty(strs)
    ensures |NonEmpty(strs)| <= |strs|
  {
    if strs != [] {
      var init := strs[..|strs| - 1];
      NonEmptyLength(init);
      CountSnoc(init, strs[|strs| - 1]);
      assert init + [strs[|strs| - 1]] == strs;
    }
  }

  lemma {:induction false} CountSnoc(strs: seq<string>, s: string)
    ensures CountNonEmpty(strs + [s]) == CountNonEmpty(strs) + (if s == "" then 0 else 1)
  {
    if strs == [] {
      assert [] + [s] == [s];
    } else {
      assert (strs + [s])[1..] == strs[1..] + [s];
      CountSnoc(strs[1..], s);
    }
  }

  /** An input without empty strings comes back unchanged. */
  lemma {:induction false} NonEmptyKeepsClean(strs: seq<string>)
    requires NoEmpty(strs)
    ensures NonEmpty(strs) == strs
  {
    if strs != [] {
      NonEmptyKeepsClean(strs[..|strs| - 1]);
    }
  }

  /** Compacting twice is the same as compacting once. */
  lemma NonEmptyIdempotent(strs: seq<string>)
    ensures NonEmpty(NonEmpty(strs)) == NonEmpty(strs)
  {
    NonEmptyHasNoEmpty(strs);
    NonEmptyKeepsClean(NonEmpty(strs));
  }

  /** The test case of go/temp/mylib/mylib_test.go: the capacity is kept and the empty string is gone. */
  method NonEmptyStringsExample() returns (backing: seq<string>, n: nat)
    ensures |backing| == 3 && n == 2
    ensures backing[..n] == ["hello", "world"]
  {
    var input := ["hello", "", "world"];
    assert NonEmpty(input[..1]) == ["hello"] by {
      assert input[..1][..0] == [];
    }
    assert NonEmpty(input[..2]) == ["hello"] by {
      assert input[..2][..1] == input[..1];
    }
    assert NonEmpty(input) == ["hello", "world"] by {
      assert input[..2] == input[..|input| - 1];
    }
    backing, n := NonEmptyStrings(input);
    NonEmptyLength(input);
  }
}

=== FILE: order_system.dfy ===
/**
 * Model of `OrderSystem` in c++/interview/order_system/order_system.h: admission
 * of buy/sell orders with a conflict check against open orders of the same
 * account and item, and a small order-status state machine.
 *
 * Prices are `double` in the source and are only compared, so they are reals.
 */
module OrderSystem {

  /** The `OrderStatus` enum, including the UNDEFINED value `operator[]` inserts. */
  datatype Status = Undefined | Pending | Rejected | Confirmed | Completed

  datatype OrderRequest = OrderRequest(
    orderId: string,
    account: string,
    itemId: string,
    side: string,     // "BUY" or "SELL"; any other text never conflicts
    price: real,
    quantity: int)

  datatype OrderUpdate = OrderUpdate(orderId: string, status: Status)

  /** The two maps `orders_` and `ordersStatus_`. */
  datatype System = System(orders: map<string, OrderRequest>, status: map<string, Status>)

  function Empty(): System
  {
    System(map[], map[])
  }

  /** Only orders that are not finished take part in the conflict check. */
  predicate Open(s: Status)
  {
    s == Pending || s == Confirmed
  }

  /**
   * `req` would trade against `exist` at a non-positive spread for the same
   * account and item: a buy at or above an existing sell, or a sell at or
   * below an existing buy.
   */
  predicate Conflicts(exist: OrderRequest, req: OrderRequest)
  {
    && exist.account == req.account
    && exist.itemId == req.itemId
    && ((req.side == "BUY" && exist.side == "SELL" && req.price >= exist.price)
        || (req.side == "SELL" && exist.side == "BUY" && exist.price >= req.price))
  }

  /** The stored order under `key` is open (its status looked up by its own id) and conflicts with `req`. */
  predicate Blocks(sys: System, key: string, req: OrderRequest)
    requires key in sys.orders
  {
    var exist := sys.orders[key];
    && exist.orderId in sys.status
    && Open(sys.status[exist.orderId])
    && Conflicts(exist, req)
  }

  predicate Rejects(sys: System, req: OrderRequest)
  {
    exists key :: key in sys.orders && Blocks(sys, key, req)
  }

  /**
   * `Save`: false and no change when some stored open order conflicts;
   * otherwise the request is stored under its id with status CONFIRMED.
   */
  function Save(sys: System, req: OrderRequest): (r: (bool, System))
    ensures r.0 ==> r.1 == System(sys.orders[req.orderId := req], sys.status[req.orderId := Confirmed])
    ensures !r.0 ==> r.1 == sys
    ensures !r.0 <==> exists key :: key in sys.orders && Blocks(sys, key, req)
  {
    if Rejects(sys, req) then (false, sys)
    else (true, System(sys.orders[req.orderId := req], sys.status[req.orderId := Confirmed]))
  }

  /**
   * The scan of `Save` as written: visit the stored orders in the map's
   * (unspecified) order and return false at the first open conflicting one.
   */
  method SaveScan(sys: System, req: OrderRequest) returns (accepted: bool, next: System)
    ensures accepted <==> !exists key :: key in sys.orders && Blocks(sys, key, req)
    ensures (accepted, next) == Save(sys, req)
  {
    var todo := sys.orders.Keys;
    while todo != {}
      invariant todo <= sys.orders.Keys
      invariant forall key :: key in sys.orders && key !in todo ==> !Blocks(sys, key, req)
      decreases todo
    {
      var key :| key in todo;
      var exist := sys.orders[key];
      if exist.orderId in sys.status {
        var s := sys.status[exist.orderId];
        if Open(s) && exist.account == req.account && exist.itemId == req.itemId {
          if req.side == "BUY" && exist.side == "SELL" && req.price >= exist.price {
            return false, sys;
          }
          if req.side == "SELL" && exist.side == "BUY" && exist.price >= req.price {
            return false, sys;
          }
        }
      }
      todo := todo - {key};
    }
    accepted := true;
    next := System(sys.orders[req.orderId := req], sys.status[req.orderId := Confirmed]);
  }

  /** The transitions `Update` allows: PENDING to REJECTED or CONFIRMED, CONFIRMED to COMPLETED. */
  predicate Allowed(from: Status, to: Status)
  {
    (from == Pending && (to == Rejected || to == Confirmed)) || (from == Confirmed && to == Completed)
  }

  /**
   * `Update`: false for an unknown id; otherwise the current status is read
   * with `operator[]` (which inserts UNDEFINED if absent) and the new status is
   * written only for an allowed transition.
   */
  function Update(sys: System, u: OrderUpdate): (r: (bool, System))
    ensures u.orderId !in sys.orders ==> r == (false, sys)
    ensures r.0 <==> u.orderId in sys.orders && u.orderId in sys.status && Allowed(sys.status[u.orderId], u.status)
    ensures r.0 ==> r.1 == sys.(status := sys.status[u.orderId := u.status])
    ensures r.1.orders == sys.orders
    ensures !r.0 && u.orderId in sys.status ==> r.1 == sys
  {
    if u.orderId !in sys.orders then (false, sys)
    else
      var status := if u.orderId in sys.status then sys.status else sys.status[u.orderId := Undefined];
      var curr := status[u.orderId];
      if Allowed(curr, u.status) then (true, sys.(status := status[u.orderId := u.status]))
      else (false, sys.(status := status))
  }

  /** Orders of different accounts or items, or on the same side, never conflict. */
  lemma ConflictNeedsSameAccountItemOppositeSide(exist: OrderRequest, req: OrderRequest)
    ensures Conflicts(exist, req) ==>
      exist.account == req.account && exist.itemId == req.itemId && exist.side != req.side
  {
  }

  /** The stored order under `key` is an open order of the given side for the account and item of `req`. */
  predicate OpenCounterpart(sys: System, key: string, req: OrderRequest, side: string)
    requires key in sys.orders
  {
    var e := sys.orders[key];
    && e.side == side && e.account == req.account && e.itemId == req.itemId
    && e.orderId in sys.status && Open(sys.status[e.orderId])
  }

  /** A BUY is rejected exactly when an open SELL of the same account and item asks no more than its price. */
  lemma BuyRejectedIff(sys: System, req: OrderRequest)
    requires req.side == "BUY"
    ensures !Save(sys, req).0 <==>
      exists key :: key in sys.orders && OpenCounterpart(sys, key, req, "SELL") && sys.orders[key].price <= req.price
  {
    if !Save(sys, req).0 {
      var key :| key in sys.orders && Blocks(sys, key, req);
      assert OpenCounterpart(sys, key, req, "SELL");
    }
  }

  /** A SELL is rejected exactly when an open BUY of the same account and item bids at least its price. */
  lemma SellRejectedIff(sys: System, req: OrderRequest)
    requires req.side == "SELL"
    ensures !Save(sys, req).0 <==>
      exists key :: key in sys.orders && OpenCounterpart(sys, key, req, "BUY") && sys.orders[key].price >= req.price
  {
    if !Save(sys, req).0 {
      var key :| key in sys.orders && Blocks(sys, key, req);
      assert OpenCounterpart(sys, key, req, "BUY");
    }
  }

  /** The system with every finished (or status-less) order dropped. */
  function OpenOnly(sys: System): System
  {
    System(map key | key in sys.orders && sys.orders[key].orderId in sys.status
                     && Open(sys.status[sys.orders[key].orderId]) :: sys.orders[key],
           sys.status)
  }

  /** COMPLETED and REJECTED orders do not matter: admission is decided by the open orders alone. */
  lemma FinishedOrdersIgnored(sys: System, req: OrderRequest)
    ensures Save(sys, req).0 == Save(OpenOnly(sys), req).0
  {
    var o := OpenOnly(sys);
    if !Save(sys, req).0 {
      var key :| key in sys.orders && Blocks(sys, key, req);
      assert key in o.orders && Blocks(o, key, req);
    }
    if !Save(o, req).0 {
      var key :| key in o.orders && Blocks(o, key, req);
      assert key in sys.orders && Blocks(sys, key, req);
    }
  }

  /**
   * The invariant of every system built by Save and Update from empty maps:
   * both maps have the same keys, each order is stored under its own id, and no
   * order is PENDING (Save always stores CONFIRMED) or UNDEFINED.
   */
  ghost predicate Consistent(sys: System)
  {
    && sys.orders.Keys == sys.status.Keys
    && (forall key :: key in sys.orders ==> sys.orders[key].orderId == key)
    && (forall key :: key in sys.status ==> sys.status[key] != Pending && sys.status[key] != Undefined)
  }

  datatype Op = SaveOp(req: OrderRequest) | UpdateOp(update: OrderUpdate)

  /** Apply a sequence of Save and Update calls. */
  function Apply(sys: System, ops: seq<Op>): (r: System)
    requires Consistent(sys)
    ensures Consistent(r)
    decreases |ops|
  {
    if ops == [] then sys
    else
      var next := match ops[0]
        case SaveOp(req) => Save(sys, req).1
        case UpdateOp(u) => Update(sys, u).1;
      Apply(next, ops[1..])
  }

  /** No order reachable through Save and Update is ever PENDING, so PENDING transitions never fire. */
  lemma NeverPending(ops: seq<Op>, key: string)
    ensures var r := Apply(Empty(), ops);
      key in r.status ==> r.status[key] != Pending && r.status[key] != Undefined
  {
  }

  /** On a reachable system a refused Update changes nothing at all. */
  lemma RefusedUpdateIsNoop(sys: System, u: OrderUpdate)
    requires Consistent(sys)
    ensures !Update(sys, u).0 ==> Update(sys, u).1 == sys
  {
  }

  /** On a reachable system the only transition Update can make is CONFIRMED to COMPLETED. */
  lemma OnlyCompletionReachable(sys: System, u: OrderUpdate)
    requires Consistent(sys)
    ensures Update(sys, u).0 ==> sys.status[u.orderId] == Confirmed && u.status == Completed
  {
  }

  /** The scenario of c++/interview/order_system/order_system_test.cpp. */
  lemma TestScenario()
    ensures var o1 := OrderRequest("1", "U1", "A", "BUY", 100.0, 10);
      var o2 := OrderRequest("2", "U1", "A", "SELL", 102.0, 5);
      var o3 := OrderRequest("3", "U1", "A", "SELL", 99.0, 5);
      var o4 := OrderRequest("4", "U1", "A", "SELL", 98.0, 5);
      var s1 := Save(Empty(), o1);
      var s2 := Save(s1.1, o2);
      var s3 := Save(s2.1, o3);
      var u1 := Update(s3.1, OrderUpdate("1", Completed));
      var u2 := Update(u1.1, OrderUpdate("1", Rejected));
      var s4 := Save(u2.1, o4);
      s1.0 && s2.0 && !s3.0 && u1.0 && !u2.0 && s4.0
  {
    var o1 := OrderRequest("1", "U1", "A", "BUY", 100.0, 10);
    var o2 := OrderRequest("2", "U1", "A", "SELL", 102.0, 5);
    var o3 := OrderRequest("3", "U1", "A", "SELL", 99.0, 5);
    var o4 := OrderRequest("4", "U1", "A", "SELL", 98.0, 5);
    var s1 := Save(Empty(), o1);
    assert s1.0;
    var s2 := Save(s1.1, o2);
    assert !Blocks(s1.1, "1", o2);
    assert s1.1.orders.Keys == {"1"};
    assert s2.0;
    var s3 := Save(s2.1, o3);
    assert "1" in s2.1.orders && Blocks(s2.1, "1", o3);
    var u1 := Update(s3.1, OrderUpdate("1", Completed));
    var u2 := Update(u1.1, OrderUpdate("1", Rejected));
    var s4 := Save(u2.1, o4);
    assert u2.1.orders.Keys == {"1", "2"};
    assert !Blocks(u2.1, "1", o4) && !Blocks(u2.1, "2", o4);
    assert s4.0;
  }
}

=== FILE: vector.dfy ===
/**
 * Model of the class template `Vector<T>` in c++/practice/stl/vector.h.
 *
 * The heap array `data_` is the sequence `buf`; its length is `capacity_`.
 * `cnt_` is `cnt`. A moved-from vector owns no array: `buf` is empty and the
 * capacity is 0. `make_unique<T[]>(n)` value-initialises its elements; that
 * value of `T` is the parameter `zero`. Thrown exceptions are `Err` results.
 */
module Vectors {
  import opened Common

  /** The exceptions the class throws. */
  datatype Error = OutOfRange | RuntimeError

  datatype Result<T> = Ok(value: T) | Err(error: Error)

  datatype Vector<T> = Vector(buf: seq<T>, cnt: nat)
  {
    function Capacity(): nat { |buf| }

    function Size(): nat { cnt }

    predicate Empty() { cnt == 0 }

    /** The object invariant: the live elements fit in the array. */
    predicate Valid() { cnt <= |buf| }

    /** The live elements `data_[0..cnt_)`. */
    function Elements(): seq<T>
      requires Valid()
    {
      buf[..cnt]
    }
  }

  /** A freshly allocated array of `n` value-initialised elements. */
  function Allocate<T>(n: nat, zero: T): seq<T>
  {
    seq(n, _ => zero)
  }

  /** `Vector(size_t cnt = 0)`: `cnt` value-initialised elements; capacity at least 2 when empty. */
  function New<T>(cnt: nat, zero: T): (v: Vector<T>)
    ensures v.Valid()
    ensures v.Size() == cnt
    ensures v.Capacity() == (if cnt == 0 then 2 else cnt)
    ensures forall i :: 0 <= i < cnt ==> v.Elements()[i] == zero
  {
    Vector(Allocate(if cnt == 0 then 2 else cnt, zero), cnt)
  }

  /** The copy constructor: an array of the same capacity holding copies of the live elements. */
  function Copy<T>(other: Vector<T>, zero: T): (v: Vector<T>)
    requires other.Valid()
    ensures v.Valid()
    ensures v.Size() == other.Size() && v.Capacity() == other.Capacity()
    ensures v.Elements() == other.Elements()
  {
    Vector(other.buf[..other.cnt] + Allocate(|other.buf| - other.cnt, zero), other.cnt)
  }

  /**
   * Copy assignment. `aliased` says `this == &other`, in which case nothing
   * happens; otherwise the target becomes a copy.
   */
  function CopyAssign<T>(self: Vector<T>, other: Vector<T>, aliased: bool, zero: T): (v: Vector<T>)
    requires other.Valid()
    requires aliased ==> self == other
    ensures v.Valid()
    ensures aliased ==> v == self
    ensures v.Size() == other.Size() && v.Capacity() == other.Capacity()
    ensures v.Elements() == other.Elements()
  {
    if aliased then self else Copy(other, zero)
  }

  /** The moved-from state: no array, size 0, capacity 0. */
  function MovedFrom<T>(): (v: Vector<T>)
    ensures v.Valid() && v.Size() == 0 && v.Capacity() == 0
  {
    Vector([], 0)
  }

  /** The move constructor: returns the new vector and what is left of `other`. */
  function Move<T>(other: Vector<T>): (r: (Vector<T>, Vector<T>))
    requires other.Valid()
    ensures r.0.Valid() && r.0.Size() == other.Size() && r.0.Capacity() == other.Capacity()
    ensures r.0.Elements() == other.Elements()
    ensures r.1.Size() == 0 && r.1.Capacity() == 0
  {
    (other, MovedFrom())
  }

  /** Move assignment: returns the new target and what is left of the source. */
  function MoveAssign<T>(self: Vector<T>, other: Vector<T>, aliased: bool): (r: (Vector<T>, Vector<T>))
    requires other.Valid()
    requires aliased ==> self == other
    ensures aliased ==> r == (self, other)
    ensures !aliased ==> r.0 == other && r.1.Size() == 0 && r.1.Capacity() == 0
  {
    if aliased then (self, other) else Move(other)
  }

  /**
   * The private `realloc`: a new array of `newCap` elements, or twice the
   * current capacity when no size is given, with the live elements moved over.
   */
  function Realloc<T>(v: Vector<T>, newCap: Option<nat>, zero: T): (r: Vector<T>)
    requires v.Valid()
    requires newCap.Some? ==> v.cnt <= newCap.value
    ensures r.Valid()
    ensures r.Capacity() == (if newCap.Some? then newCap.value else 2 * v.Capacity())
    ensures r.Size() == v.Size() && r.Elements() == v.Elements()
  {
    var n := if newCap.Some? then newCap.value else 2 * |v.buf|;
    Vector(v.buf[..v.cnt] + Allocate(n - v.cnt, zero), v.cnt)
  }

  /** The capacity `push_back` writes into: doubled first when the array is full. */
  function GrownCapacity<T>(v: Vector<T>): nat
  {
    if v.cnt >= v.Capacity() then 2 * v.Capacity() else v.Capacity()
  }

  /**
   * `push_back`. The write `data_[cnt_]` needs `cnt_` below the capacity after
   * the optional realloc; doubling a capacity of 0 leaves it 0, so this fails
   * for a moved-from vector (see MovedFromPushBackOutOfBounds).
   */
  function PushBack<T>(v: Vector<T>, item: T, zero: T): (r: Vector<T>)
    requires v.Valid()
    requires v.cnt < GrownCapacity(v)
    ensures r.Valid()
    ensures r.Size() == v.Size() + 1
    ensures r.Elements() == v.Elements() + [item]
    ensures v.Size() == v.Capacity() ==> r.Capacity() == 2 * v.Capacity()
    ensures v.Size() < v.Capacity() ==> r.Capacity() == v.Capacity()
  {
    var w := if v.cnt >= |v.buf| then Realloc(v, None, zero) else v;
    assert w.buf[w.cnt := item][..w.cnt + 1] == w.buf[..w.cnt] + [item];
    Vector(w.buf[w.cnt := item], w.cnt + 1)
  }

  /** `at`: the element at `index`, or `out_of_range` past the end. */
  function At<T>(v: Vector<T>, index: nat): (r: Result<T>)
    requires v.Valid()
    ensures r.Ok? <==> index < v.Size()
    ensures r.Ok? ==> r.value == v.Elements()[index]
    ensures r.Err? ==> r.error == OutOfRange
  {
    if index >= v.cnt then Err(OutOfRange) else Ok(v.buf[index])
  }

  /** `front`: the first element, or `runtime_error` when empty. */
  function Front<T>(v: Vector<T>): (r: Result<T>)
    requires v.Valid()
    ensures r.Ok? <==> !v.Empty()
    ensures r.Ok? ==> r.value == v.Elements()[0]
    ensures r.Err? ==> r.error == RuntimeError
  {
    if v.Empty() then Err(RuntimeError) else Ok(v.buf[0])
  }

  /** `back`: the last element, or `runtime_error` when empty. */
  function Back<T>(v: Vector<T>): (r: Result<T>)
    requires v.Valid()
    ensures r.Ok? <==> !v.Empty()
    ensures r.Ok? ==> r.value == Last(v.Elements())
    ensures r.Err? ==> r.error == RuntimeError
  {
    if v.Empty() then Err(RuntimeError) else Ok(v.buf[v.cnt - 1])
  }

  /**
   * `pop_back`: `runtime_error` when empty, otherwise one element fewer.
   * Destroying the last element leaves the array slot in place.
   */
  function PopBack<T>(v: Vector<T>): (r: Result<Vector<T>>)
    requires v.Valid()
    ensures r.Ok? <==> !v.Empty()
    ensures r.Err? ==> r.error == RuntimeError
    ensures r.Ok? ==> r.value.Valid() && r.value.Size() == v.Size() - 1
    ensures r.Ok? ==> r.value.Elements() == v.Elements()[..v.Size() - 1]
    ensures r.Ok? ==> r.value.Capacity() == v.Capacity()
  {
    if v.Empty() then Err(RuntimeError) else Ok(Vector(v.buf, v.cnt - 1))
  }

  /** `clear`: no elements, same array. */
  function Clear<T>(v: Vector<T>): (r: Vector<T>)
    requires v.Valid()
    ensures r.Valid() && r.Size() == 0 && r.Capacity() == v.Capacity()
    ensures r.buf == v.buf
  {
    Vector(v.buf, 0)
  }

  /**
   * `resize(n)`: grows the array to exactly `n` when `n` exceeds the capacity,
   * then sets the size to `n`. The first min(n, size) elements are kept;
   * slots beyond the old size are value-initialised after a realloc and
   * otherwise are whatever the array held there.
   */
  function Resize<T>(v: Vector<T>, n: nat, zero: T): (r: Vector<T>)
    requires v.Valid()
    ensures r.Valid()
    ensures r.Size() == n
    ensures r.Capacity() == Max(n, v.Capacity())
    ensures r.Elements()[..Min(n, v.Size())] == v.Elements()[..Min(n, v.Size())]
    ensures n > v.Capacity() ==> forall i :: v.Size() <= i < n ==> r.Elements()[i] == zero
    ensures n <= v.Capacity() ==> r.buf == v.buf
  {
    var w := if n > |v.buf| then Realloc(v, Some(n), zero) else v;
    if n == 0 then Clear(w) else Vector(w.buf, n)
  }

  /** `reserve(n)`: grows the array to exactly `n` if that is larger; never shrinks. */
  function Reserve<T>(v: Vector<T>, n: nat, zero: T): (r: Vector<T>)
    requires v.Valid()
    ensures r.Valid()
    ensures r.Capacity() == Max(n, v.Capacity())
    ensures r.Size() == v.Size() && r.Elements() == v.Elements()
  {
    if n <= |v.buf| then v else Realloc(v, Some(n), zero)
  }

  /** A vector `push_back` can be called on: valid, with an array of non-zero capacity. */
  predicate Usable<T>(v: Vector<T>)
  {
    v.Valid() && v.Capacity() > 0
  }

  /** push_back's precondition holds exactly when the array has non-zero capacity. */
  lemma PushBackDefinedIffCapacity<T>(v: Vector<T>)
    requires v.Valid()
    ensures v.cnt < GrownCapacity(v) <==> v.Capacity() > 0
  {
  }

  /**
   * A moved-from vector has capacity 0 and realloc doubles 0 to 0, so the
   * next push_back would write `data_[0]` of an empty array.
   */
  lemma MovedFromPushBackOutOfBounds<T>(other: Vector<T>, self: Vector<T>, zero: T)
    requires other.Valid()
    ensures Realloc(Move(other).1, None, zero).Capacity() == 0
    ensures var left := Move(other).1; !(left.cnt < GrownCapacity(left))
    ensures var left := MoveAssign(self, other, false).1; !(left.cnt < GrownCapacity(left))
  {
  }

  /** Every operation except a move keeps a vector usable. */
  lemma OperationsKeepUsable<T>(v: Vector<T>, item: T, n: nat, zero: T)
    requires Usable(v)
    ensures Usable(New(n, zero))
    ensures Usable(Copy(v, zero))
    ensures Usable(PushBack(v, item, zero))
    ensures PopBack(v).Ok? ==> Usable(PopBack(v).value)
    ensures Usable(Clear(v))
    ensures Usable(Resize(v, n, zero))
    ensures Usable(Reserve(v, n, zero))
  {
  }

  /** pop_back undoes push_back on the elements; back sees the pushed item. */
  lemma PopBackUndoesPushBack<T>(v: Vector<T>, item: T, zero: T)
    requires Usable(v)
    ensures Back(PushBack(v, item, zero)) == Ok(item)
    ensures PopBack(PushBack(v, item, zero)).Ok?
    ensures PopBack(PushBack(v, item, zero)).value.Elements() == v.Elements()
  {
    var p := PushBack(v, item, zero);
    assert p.Elements()[..p.Size() - 1] == v.Elements();
  }

  /** `push_back` of every item of `items`, in order. */
  function PushAll<T>(v: Vector<T>, items: seq<T>, zero: T): (r: Vector<T>)
    requires Usable(v)
    ensures Usable(r)
    ensures r.Elements() == v.Elements() + items
    ensures r.Size() == v.Size() + |items|
    decreases |items|
  {
    if items == [] then v
    else
      var r := PushAll(PushBack(v, items[0], zero), items[1..], zero);
      assert v.Elements() + [items[0]] + items[1..] == v.Elements() + items;
      r
  }

  /** The stress test: after pushing `items` onto a new vector, `at(i)` reads item i back. */
  lemma PushedItemsReadBack<T>(items: seq<T>, zero: T)
    ensures var v := PushAll(New(0, zero), items, zero);
      && v.Size() == |items|
      && forall i :: 0 <= i < |items| ==> At(v, i) == Ok(items[i])
    ensures At(PushAll(New(0, zero), items, zero), |items|) == Err(OutOfRange)
  {
  }
}
